=== FILE: README.md ===
# A model of the site generator's `generate` command

`generator.py` builds a static web site. It takes a list of articles from `config.yml`.
For each article it clones a git repository holding `text.md` and `var.yml`, merges the
article's variables with the configured ones, and fills in a missing `title` from the
first `# ` heading and a missing `path` from the title. It then expands the markdown as a
Jinja2 template, converts it to HTML, renders it with an allow-listed page template and
writes it to `<builddir>/<path>/index.html`. At the end it renders `index.html` listing
every article whose `index` is absent or equal to `True`.

This project models those decisions as pure Dafny functions and proves what they
guarantee:

- `wrappers.dfy`: `Option` and `Result`, the failure-propagating result of every step.
- `values.dfy`: the parsed YAML tree (`Value`), an article's variables (`Vars`), and every
  way a run stops (`Failure`). Each failure ends the process with status 1.
- `text.dfy`: the Python string operations used.
  - `split` on one character, proved inverse to `join`.
  - `strip`, using Python's `isspace` set.
  - `lower` and one-character `replace`.
  - Substring search.
- `paths.dfy`: `title_to_path`.
- `headings.dfy`: `get_first_heading`, including the removal of every `# ` in the line.
- `config.dfy`: the dotted-key walks of `get_config` and `check_if_in_config`, checked
  against a reference definition (`Reaches`/`At`). The keys the run itself reads hold no
  dot; they are read through the one-step `Lookup` and `Has`, which equal the two walks
  on such keys.
- `variables.dfy`: `get_vars` and the title/path defaulting.
- `templates.dfy`: template selection with its allow-list.
- `generator.dfy`:
  - the settings read from `config.yml`, one article's processing and the article loop;
  - the pages written (keyed by path, with a later article overwriting an earlier one);
  - the index entries and the index page;
  - in module `GeneratorFacts`, whole-run facts and a worked two-article run.

The parts of a run that touch the outside world are given to the model as functions in
`Generator.Collaborators`:
- `fetch`: cloning the repository and reading its two files;
- `expand`: Jinja2 expansion of the body;
- `toHtml`: mistletoe;
- `renderPage` and `renderIndex`: page and index rendering.

Templates present in the templates directory are a set of names.

Behaviour that is easy to misread; the model follows the code:
- **Empty `articles` list.** It is not rejected up front; only `articles: null` is. The run
  still fails, at the index step, because `var` was never bound there
  (`GeneratorFacts.EmptyArticleListFails`).
- **No title and no heading.** Without a configured `path`, `title_to_path(None)` raises,
  so the run stops (`Variables.NoTitleNoPath`).
- **`index` values.** `index: null` or `index: "no"` leaves the article out of the index.
  `index: 1` keeps it, because `1 == True` in Python.
- **The `# ` marker.** `get_first_heading` removes every `# ` in the heading line, not
  only the leading one: `# C# b` yields the title `Cb`.
- **Global `var`.** It is read inside the loop in the program and once before the loop
  here. `GeneratorFacts.GlobalVarNeverFails` shows this cannot change the outcome.

## Model

| member | source | states |
|---|---|---|
| Paths.TitleToPath | generator.py:24-27 | The path has the title's length and contains no space and no upper-case letter. Every space becomes `-`. Every other character is lower-cased, and a character that is not upper-case is kept. |
| Paths.TitleToPathIdempotent | generator.py:24-27 | Deriving a path from a derived path changes nothing. |
| Paths.TitleToPathCollides | generator.py:24-27 | Titles that differ only in letter case or in space versus hyphen get the same path. |
| Text.JoinSplit | generator.py:30 | Joining the lines `split` produces, with the separator, gives back the markdown. |
| Text.SplitJoin | generator.py:30 | Splitting a join of separator-free pieces gives back exactly those pieces. |
| Text.Split | generator.py:30 | `split` always yields at least one piece, and no piece contains the separator. |
| Text.OccursAt | generator.py:55 | The substring test used for `k in c` on a string holds exactly when the key sits at some position of the string. |
| Text.Strip | generator.py:33 | The stripped text is a slice of the input with only whitespace cut from either end. It neither starts nor ends with whitespace. |
| Text.StripIdempotent | generator.py:33 | Stripping a stripped heading changes nothing. |
| Headings.IsHeadingLine | generator.py:32 | A line is a heading line exactly when it starts with `#` followed by a space; a `##` line never is. |
| Headings.RemoveMarkers | generator.py:33 | Removing markers never lengthens the line and removes characters in pairs. A line without `# ` is unchanged. |
| Headings.RemoveMarkersSplits | generator.py:33 | Every `# ` is removed wherever it sits in the line: the text before and after a marker is treated on its own, and the results are joined. |
| Headings.RemoveMarkersKeepsText | generator.py:33 | Only `#` and space characters are removed: every other character survives, in order. |
| Headings.FirstHeadingIn | generator.py:29-33 | There is no heading exactly when no line is a heading line. |
| Headings.FirstHeadingIsFirst | generator.py:31-33 | The title comes from the first heading line; earlier lines are ignored. |
| Headings.FirstHeadingIsStripped | generator.py:29-33 | A found heading never begins or ends with whitespace. |
| Headings.FirstHeadingWitness | generator.py:31-33 | A found heading is the text of one of the markdown's lines. |
| Headings.InnerMarkerRemoved | generator.py:33 | The line `# C# b` yields the title `Cb`: the marker is also removed inside the text. |
| Config.Step | generator.py:55-56 | One segment succeeds exactly when the node is a mapping holding the key, and then gives that entry. A mapping never raises. A string raises exactly when it contains the key as a substring, a list exactly when it holds the key as an element, and any other node always raises; every such error is a TypeError. |
| Config.ProbeOnMapTree | generator.py:52-60 | On a tree whose every node is a mapping, `check_if_in_config` never raises, and it answers true exactly when every segment is found, in order; after any miss it answers false. |
| Config.WalkFollowsMappings | generator.py:79-87 | `get_config` succeeds exactly when every segment names an entry of a mapping, in order, and then returns the node those segments lead to. |
| Config.ProbeKeepsMiss | generator.py:53-60 | Once a segment was missed, `check_if_in_config` can no longer return true. |
| Config.ProbeAgreesWithWalk | generator.py:52-60 | `check_if_in_config` returns true exactly when `get_config` would succeed. A TypeError in `get_config` is a TypeError in the probe. |
| Config.IsSetIffGet | generator.py:52-87 | The two properties above for a dotted key. |
| Config.PlainKeyIsLookup | generator.py:54-80 | A key without dots splits into itself, so both walks take exactly one step. |
| Config.LookupTopLevel | generator.py:52-87 | A one-step lookup succeeds exactly on a mapping holding the key and returns its entry. On a mapping without the key the run stops naming the key, and the probe answers membership. |
| Config.GetPlainKey | generator.py:79-87 | The same for `get_config` and `check_if_in_config` called with a key without dots. |
| Variables.Layer | generator.py:123-134 | A layer that copies without error copies the node's mapping entries. A layer raises exactly when it is not null, not a mapping, and not an empty string or list. |
| Variables.GetVars | generator.py:119-136 | The merge succeeds exactly when all three layers do. Its keys are the union of the layers' keys. Each value comes from the global `var` first, then the entry's `var`, then var.yml. |
| Variables.DefaultTitleAndPath | generator.py:208-217 | Only `title` and `path` are added and no existing value changes. A missing title is the first heading, or null. A missing path is the title's path. The step fails exactly when `path` is missing and the title is not a string. |
| Variables.NoTitleNoPath | generator.py:209-216 | With no configured title or path and no heading line, the run stops. |
| Templates.ChooseTemplate | generator.py:238-247 | The template is always allow-listed. A request is honoured without a warning exactly when it is an allow-listed name that exists. No request gives the default without a warning. Any other request gives the default with a warning. |
| Generator.Listed | generator.py:271 | An article is listed exactly when it has no `index`, or its `index` is `true` or `1`. So `index: false`, null or a string leaves it out. |
| Generator.ProcessArticle | generator.py:169-274 | The error order: a non-mapping entry, a missing `source`, then the fetch failure. A processed article's variables are the merged and defaulted ones, and its title and path come from them. Its template is the one the selection rule picks, which is allow-listed and present. Its page is the chosen template rendered with the HTML of the expanded body and those variables. It is listed per `index`. |
| GeneratorFacts.ProcessArticleSucceeds | generator.py:169-266 | If every stage succeeds, including rendering the HTML actually produced, the article is processed with exactly those variables, the selected template and that rendered page. |
| Generator.ProcessAll | generator.py:169 | A successful loop gives one decision per entry, in order. A failed loop reports the first failing article's error, and all earlier articles succeeded. |
| Generator.IndexEntries | generator.py:269-274 | An index entry exists exactly for each listed article's title and path, and there are never more entries than articles. |
| GeneratorFacts.IndexEntriesAppend | generator.py:169-274 | The index keeps article order: each article's entry is appended in turn. |
| Generator.Pages | generator.py:259-266 | Pages are written at exactly the articles' paths. |
| Generator.LastWriterWins | generator.py:264-266 | The page at a path is that of the last article written there. |
| Generator.DistinctPathsKeepAllPages | generator.py:259-266 | With pairwise distinct path values, every article keeps its own page in the path-keyed page map. |
| Generator.ArticleList | generator.py:169 | A list of articles is iterated as given. Any other value that does not raise processes no article. |
| Generator.ReadSettings | generator.py:146-165 | A failing `articles` lookup is the run's error, and `articles: null` is "No articles defined". Settings are read exactly when `articles`, `builddir`, `staticdir` and `templatesdir` are set, `articles` is not null and can be iterated, and `var` can be read. |
| GeneratorFacts.SettingsKeysAreConfigKeys | generator.py:146-165 | `articles`, `builddir`, `staticdir`, `templatesdir` and `var` are read exactly as `get_config` and `check_if_in_config` read them. |
| GeneratorFacts.GlobalVarNeverFails | generator.py:202-204 | Once `articles` was read, reading the global `var` cannot fail. |
| GeneratorFacts.SettingsOfMapping | generator.py:146-165 | A mapping with an article list and the three directories yields that list, and `var` or null. |
| Generator.Finish | generator.py:276-284 | Without `index.html` the run fails. With no article, `var` is unbound and the run fails. Otherwise the run succeeds exactly when the index page renders. The index lists the listed articles and is rendered with the last article's variables. |
| Generator.Generate | generator.py:139-284 | A failed settings read or a failed article is the run's error. Once the settings and every article succeed, the run ends as the index step does. A successful run processed every configured article, in order, and at least one. It had `index.html`. The index is the listed articles, and the pages are the articles' pages by path, a later article overwriting an earlier one. |
| GeneratorFacts.EveryArticleHasAPage | generator.py:259-284 | In a finished site every article, listed or not, has a page, and every listed article has its index entry. |
| GeneratorFacts.EmptyArticleListFails | generator.py:146-281 | An empty `articles` list is not rejected up front, but the run still fails. |
| GeneratorFacts.TwoArticleRun | generator.py:139-284 | Article A sets `title: Hello`. Article B sets `index: false` and `path: custom`. Pages are written at `hello` and `custom`, and the index lists only `{Hello, hello}`. |

## Left out

- Loading `config.yml` and its cache (`CONFIGCACHE`), and the missing or unreadable
  config file exits: the walks start from the parsed document.
- YAML parsing of `var.yml`: it arrives already parsed through `fetch`. Mapping keys that
  are not strings are not represented; a string key segment never equals them.
- `git clone`, the `temp` directory and the existence checks on `text.md` and `var.yml`:
  these are the `fetch` collaborator, and its failures are `FetchFailure` values.
- Jinja2 expansion and rendering, and mistletoe: these are collaborators. A Jinja2
  exception is `None`. Mistletoe (`toHtml`) is assumed never to raise.
- All file-system writes: `rmtree`, `copytree` of the static folders, `makedirs`, and
  writing pages. The resulting pages are `Site.pages`. An article with a `static` folder
  has it copied to `<builddir>/<path>/` by a `copytree` that raises `FileExistsError`
  whenever that directory already exists. It already exists when an earlier article used
  the same path, whether or not that article had a `static` folder. It also exists when
  the global static tree holds a directory of that name, or when `path` is `""`. These
  failures are not modelled: whether an article has a `static` folder is not part of what
  `fetch` returns.
- `os.path.exists` on the directory settings: the kind of the `builddir`, `staticdir` and
  `templatesdir` values is not checked, only that they are set.
- Pages are keyed by the `path` value itself, not by the text `format` makes of it. A
  non-string path that would print like a string path is not merged with it. A `path` of
  `""` is not identified with the site's own `index.html`. Distinct path strings that name
  one directory on disk (`about`, `/about`, `about/`, `./about` become `build/about`,
  `build//about`, `build/about/`, `build/./about`) are distinct keys in the model, while
  on disk the later page overwrites the earlier one.
- `!!set` and `!!binary` nodes are folded into `Other`: an empty set used as a `var` layer
  copies nothing in the code but fails in the model, and a set is never searched for a
  dotted key segment.
- Paths.TitleToPath: lower-cases ASCII letters only. Python's full Unicode case mapping is
  not modelled.
- Variables.Layer: a non-empty list of integer indexes inside a `var` layer is treated as
  a TypeError. Python would copy list elements by index.
- Generator.Listed: a float `1.0` under `index` counts as not listed. Python counts it
  as `True`. Floats are `Other`.
- `main_sync` (rsync), logging, argument parsing, `set_logging` and the version commands:
  I/O with no decision to model.

=== FILE: config.dfy ===
/** The dotted-key walks of `get_config` and `check_if_in_config` over the parsed
    config.yml. Loading and caching the file is not part of this model: the walks start
    from the parsed document. */
module Config {
  import opened Wrappers
  import opened Values
  import opened Text

  /** One segment of either walk: Python's `k in c`, followed by `c[k]` when that holds.
      A mapping answers by key. A string answers `k in c` by substring, a list by element,
      and neither can then be indexed by a string (TypeError). Any other node cannot
      even answer `k in c` (TypeError). */
  function Step(c: Value, k: string): (r: Result<Option<Value>, Failure>)
    ensures r.Ok? && r.value.Some? <==> c.Map? && k in c.entries
    ensures r.Ok? && r.value.Some? ==> r.value.value == c.entries[k]
    ensures c.Map? ==> r.Ok?
    ensures c.Str? ==> (r.Err? <==> Occurs(k, c.s))
    ensures c.List? ==> (r.Err? <==> Str(k) in c.items)
    ensures !(c.Map? || c.Str? || c.List?) ==> r.Err?
    ensures r.Err? ==> r.error == WrongKind
  {
    match c
    case Map(m) => Ok(if k in m then Some(m[k]) else None)
    case Str(s) => if Occurs(k, s) then Err(WrongKind) else Ok(None)
    case List(xs) => if Str(k) in xs then Err(WrongKind) else Ok(None)
    case _ => Err(WrongKind)
  }

  /** The loop of `get_config`: descend one segment at a time; the first absent segment
      ends the run with the whole dotted key in the message. */
  function Walk(c: Value, segs: seq<string>, key: string): Result<Value, Failure>
    decreases |segs|
  {
    if segs == [] then Ok(c)
    else match Step(c, segs[0])
      case Err(e) => Err(e)
      case Ok(None) => Err(MissingKey(key))
      case Ok(Some(v)) => Walk(v, segs[1..], key)
  }

  /** The loop of `check_if_in_config`: an absent segment only clears `found`; the loop
      does not stop and tries the next segment on the same node. */
  function Probe(c: Value, segs: seq<string>, found: bool): Result<bool, Failure>
    decreases |segs|
  {
    if segs == [] then Ok(found)
    else match Step(c, segs[0])
      case Err(e) => Err(e)
      case Ok(None) => Probe(c, segs[1..], false)
      case Ok(Some(v)) => Probe(v, segs[1..], found)
  }

  /** `get_config(args, key)`. */
  function Get(root: Value, key: string): Result<Value, Failure>
  {
    Walk(root, Split(key, '.'), key)
  }

  /** `check_if_in_config(args, key)`. */
  function IsSet(root: Value, key: string): Result<bool, Failure>
  {
    Probe(root, Split(key, '.'), true)
  }

  /** `get_config` of a key without dots: a walk of one segment. */
  function Lookup(root: Value, key: string): Result<Value, Failure>
  {
    Walk(root, [key], key)
  }

  /** `check_if_in_config` of a key without dots. */
  function Has(root: Value, key: string): Result<bool, Failure>
  {
    Probe(root, [key], true)
  }

  /** Reference definition: every segment names an entry of a mapping, in order. */
  predicate Reaches(c: Value, segs: seq<string>)
    decreases |segs|
  {
    segs == [] || (c.Map? && segs[0] in c.entries && Reaches(c.entries[segs[0]], segs[1..]))
  }

  /** The node reached by indexing each segment in turn. */
  function At(c: Value, segs: seq<string>): Value
    requires Reaches(c, segs)
    decreases |segs|
  {
    if segs == [] then c else At(c.entries[segs[0]], segs[1..])
  }

  /** `get_config` succeeds exactly when the segments lead through mappings, and then
      returns the node they lead to. */
  lemma {:induction false} WalkFollowsMappings(c: Value, segs: seq<string>, key: string)
    ensures Walk(c, segs, key).Ok? <==> Reaches(c, segs)
    ensures Walk(c, segs, key).Ok? ==> Walk(c, segs, key).value == At(c, segs)
    decreases |segs|
  {
    if segs != [] && c.Map? && segs[0] in c.entries {
      WalkFollowsMappings(c.entries[segs[0]], segs[1..], key);
    }
  }

  /** Once a segment was missed, `check_if_in_config` can no longer answer true. */
  lemma {:induction false} ProbeKeepsMiss(c: Value, segs: seq<string>)
    ensures Probe(c, segs, false) != Ok(true)
    decreases |segs|
  {
    if segs != [] {
      match Step(c, segs[0])
      case Err(_) =>
      case Ok(None) => ProbeKeepsMiss(c, segs[1..]);
      case Ok(Some(v)) => ProbeKeepsMiss(v, segs[1..]);
    }
  }

  /** Along the walk both loops take the same steps, so a TypeError hit by `get_config`
      is hit by `check_if_in_config` too, and the probe answers true exactly when
      `get_config` would follow every segment without exiting. */
  lemma {:induction false} ProbeAgreesWithWalk(c: Value, segs: seq<string>, key: string)
    ensures Probe(c, segs, true) == Ok(true) <==> Walk(c, segs, key).Ok?
    ensures Walk(c, segs, key) == Err(WrongKind) ==> Probe(c, segs, true) == Err(WrongKind)
    decreases |segs|
  {
    if segs != [] {
      match Step(c, segs[0])
      case Err(_) =>
      case Ok(None) => ProbeKeepsMiss(c, segs[1..]);
      case Ok(Some(v)) => ProbeAgreesWithWalk(v, segs[1..], key);
    }
  }

  /** A tree of mappings all the way down: no node can raise in either walk. */
  predicate MapTree(c: Value)
    decreases c
  {
    c.Map? && forall k :: k in c.entries ==> MapTree(c.entries[k])
  }

  /** On a tree of mappings `check_if_in_config` never raises: it answers true exactly
      when every segment is found in turn, and false after any miss, whichever segment
      missed. */
  lemma {:induction false} ProbeOnMapTree(c: Value, segs: seq<string>, found: bool)
    requires MapTree(c)
    ensures Probe(c, segs, found) == Ok(found && Reaches(c, segs))
    decreases |segs|
  {
    if segs != [] {
      if segs[0] in c.entries {
        ProbeOnMapTree(c.entries[segs[0]], segs[1..], found);
      } else {
        ProbeOnMapTree(c, segs[1..], false);
      }
    }
  }

  /** The dotted-key statement of the two lemmas above. */
  lemma IsSetIffGet(root: Value, key: string)
    ensures IsSet(root, key) == Ok(true) <==> Get(root, key).Ok?
    ensures Get(root, key).Ok? <==> Reaches(root, Split(key, '.'))
    ensures Get(root, key).Ok? ==> Get(root, key).value == At(root, Split(key, '.'))
    ensures Get(root, key) == Err(WrongKind) ==> IsSet(root, key) == Err(WrongKind)
  {
    ProbeAgreesWithWalk(root, Split(key, '.'), key);
    WalkFollowsMappings(root, Split(key, '.'), key);
  }

  /** A key without dots splits into itself, so both walks take a single step. */
  lemma PlainKeyIsLookup(root: Value, key: string)
    requires '.' !in key
    ensures Split(key, '.') == [key]
    ensures Get(root, key) == Lookup(root, key) && IsSet(root, key) == Has(root, key)
  {
    SplitJoin([key], '.');
    assert Join([key], '.') == key;
  }

  /** A one-segment lookup succeeds exactly on a mapping holding the key; on a mapping
      without it the run stops naming that key, and the probe answers membership. */
  lemma LookupTopLevel(root: Value, key: string)
    ensures Lookup(root, key).Ok? <==> root.Map? && key in root.entries
    ensures Lookup(root, key).Ok? ==> Lookup(root, key).value == root.entries[key]
    ensures root.Map? && key !in root.entries ==> Lookup(root, key) == Err(MissingKey(key))
    ensures root.Map? ==> Has(root, key) == Ok(key in root.entries)
  {
    assert [key][1..] == [];
    WalkFollowsMappings(root, [key], key);
    if root.Map? {
      if key in root.entries {
        assert Probe(root, [key], true) == Probe(root.entries[key], [], true);
      } else {
        assert Probe(root, [key], true) == Probe(root, [], false);
      }
    }
  }

  /** A key without dots is a single lookup in the top-level mapping. */
  lemma GetPlainKey(root: Value, key: string)
    requires '.' !in key
    ensures Get(root, key).Ok? <==> root.Map? && key in root.entries
    ensures Get(root, key).Ok? ==> Get(root, key).value == root.entries[key]
    ensures root.Map? && key !in root.entries ==> Get(root, key) == Err(MissingKey(key))
    ensures root.Map? ==> IsSet(root, key) == Ok(key in root.entries)
  {
    PlainKeyIsLookup(root, key);
    LookupTopLevel(root, key);
  }
}

=== FILE: generator.dfy ===
/** The `generate` command (`main_generate`): per-article decisions, the pages written,
    and the index. File-system work and third-party libraries are the collaborators
    passed in as functions. */
module Generator {
  import opened Wrappers
  import opened Values
  import opened Config
  import opened Variables
  import opened Templates

  /** What one clone yields: the text of temp/text.md and the parsed temp/var.yml. The
      text is as read in text mode, so every `\r\n` and lone `\r` is already a `\n`; the
      line split of the heading search relies on that. */
  datatype Fetched = Fetched(markdown: string, articleConfig: Value)

  /** The parts of the run outside this model, as functions of their inputs:
      `fetch` clones an article's `source` and reads its two files; `expand` is the Jinja2
      expansion of text.md with `var` bound (None when it raises); `toHtml` is mistletoe;
      `renderPage` renders a named template with `content` and `var` (None when it raises);
      `renderIndex` renders index.html with `articles` and `var`. */
  datatype Collaborators = Collaborators(
    fetch: Value -> Result<Fetched, FetchFailure>,
    expand: (string, Vars) -> Option<string>,
    toHtml: string -> string,
    renderPage: (string, string, Vars) -> Option<string>,
    renderIndex: (seq<IndexEntry>, Vars) -> Option<string>)

  /** One `{title, path}` element of `articlelist`. */
  datatype IndexEntry = IndexEntry(title: Value, path: Value)

  /** Everything decided for one article. */
  datatype Decision = Decision(
    vars: Vars,          // the merged variables after title/path defaulting
    title: Value,
    path: Value,         // the page goes to <builddir>/<path>/index.html
    template: Choice,
    page: string,        // the rendered page
    listed: bool)        // whether it is added to the index

  /** The whole output of a successful run. */
  datatype Site = Site(
    decisions: seq<Decision>,    // one per entry of `articles`, in order
    pages: map<Value, string>,   // page written per path; a later article overwrites
    index: seq<IndexEntry>,
    indexPage: string)

  /** An article is listed when its variables have no `index`, or when `index` equals
      Python's `True`; the integer 1 equals `True` in Python, so it lists the article too. */
  function Listed(vars: Vars): (b: bool)
    ensures "index" !in vars ==> b
    ensures "index" in vars && (vars["index"] == Bool(false) || vars["index"].Null? || vars["index"].Str?) ==> !b
    ensures "index" in vars && (vars["index"] == Bool(true) || vars["index"] == Int(1)) ==> b
    ensures b ==> "index" !in vars || vars["index"] == Bool(true) || vars["index"] == Int(1)
  {
    "index" !in vars || vars["index"] == Bool(true) || vars["index"] == Int(1)
  }

  /** Lines 170-274 of generator.py for one entry of `articles`: read its `source`, clone
      it, merge the variables, default title and path, expand and convert the body, pick
      and render the template. The first failure ends the run. */
  function ProcessArticle(entry: Value, globalVar: Value, templates: set<string>, env: Collaborators)
    : (r: Result<Decision, Failure>)
    ensures !entry.Map? ==> r == Err(WrongKind)
    ensures entry.Map? && "source" !in entry.entries ==> r == Err(MissingField("source"))
    ensures entry.Map? && "source" in entry.entries && env.fetch(entry.entries["source"]).Err? ==>
              r == Err(FetchFailed(env.fetch(entry.entries["source"]).error))
    ensures r.Ok? ==> entry.Map? && "source" in entry.entries && env.fetch(entry.entries["source"]).Ok?
    ensures r.Ok? ==>
              var fetched := env.fetch(entry.entries["source"]).value;
              var merged := GetVars(fetched.articleConfig, entry.entries, globalVar);
              merged.Ok? && DefaultTitleAndPath(merged.value, fetched.markdown) == Ok(r.value.vars)
    ensures r.Ok? ==> "title" in r.value.vars && r.value.title == r.value.vars["title"]
    ensures r.Ok? ==> "path" in r.value.vars && r.value.path == r.value.vars["path"]
    ensures r.Ok? ==> r.value.template == ChooseTemplate(r.value.vars, templates)
    ensures r.Ok? ==> r.value.template.name in Allowed && r.value.template.name in templates
    ensures r.Ok? ==>
              var fetched := env.fetch(entry.entries["source"]).value;
              var body := env.expand(fetched.markdown, r.value.vars);
              body.Some? && env.renderPage(r.value.template.name, env.toHtml(body.value), r.value.vars) == Some(r.value.page)
    ensures r.Ok? ==> r.value.listed == Listed(r.value.vars)
  {
    if !entry.Map? then Err(WrongKind)
    else if "source" !in entry.entries then Err(MissingField("source"))
    else match env.fetch(entry.entries["source"])
      case Err(f) => Err(FetchFailed(f))
      case Ok(fetched) =>
        var merged :- GetVars(fetched.articleConfig, entry.entries, globalVar);
        var vars :- DefaultTitleAndPath(merged, fetched.markdown);
        match env.expand(fetched.markdown, vars)
        case None => Err(BodyRenderFailed)
        case Some(body) =>
          var html := env.toHtml(body);
          var choice := ChooseTemplate(vars, templates);
          if choice.name !in templates then Err(TemplateNotFound(choice.name))
          else match env.renderPage(choice.name, html, vars)
            case None => Err(PageRenderFailed)
            case Some(page) => Ok(Decision(vars, vars["title"], vars["path"], choice, page, Listed(vars)))
  }

  /** The article loop: every entry in order, stopping at the first failure. */
  function ProcessAll(entries: seq<Value>, globalVar: Value, templates: set<string>, env: Collaborators)
    : (r: Result<seq<Decision>, Failure>)
    ensures r.Ok? ==> |r.value| == |entries|
    ensures r.Ok? ==> forall i :: 0 <= i < |entries| ==> ProcessArticle(entries[i], globalVar, templates, env) == Ok(r.value[i])
    ensures r.Err? ==> exists i :: 0 <= i < |entries|
                        && ProcessArticle(entries[i], globalVar, templates, env) == Err(r.error)
                        && forall j :: 0 <= j < i ==> ProcessArticle(entries[j], globalVar, templates, env).Ok?
    decreases |entries|
  {
    if entries == [] then Ok([])
    else
      var d :- ProcessArticle(entries[0], globalVar, templates, env);
      var ds :- ProcessAll(entries[1..], globalVar, templates, env);
      Ok([d] + ds)
  }

  /** `articlelist`: the listed articles' `{title, path}`, in article order. */
  function IndexEntries(ds: seq<Decision>): (r: seq<IndexEntry>)
    ensures |r| <= |ds|
    ensures forall e :: e in r <==> exists i :: 0 <= i < |ds| && ds[i].listed && e == IndexEntry(ds[i].title, ds[i].path)
    decreases |ds|
  {
    if ds == [] then []
    else (if ds[0].listed then [IndexEntry(ds[0].title, ds[0].path)] else []) + IndexEntries(ds[1..])
  }

  /** The paths the articles are written to. */
  function PathsOf(ds: seq<Decision>): (r: set<Value>)
    ensures forall i :: 0 <= i < |ds| ==> ds[i].path in r
    ensures forall p :: p in r ==> exists i :: 0 <= i < |ds| && ds[i].path == p
    decreases |ds|
  {
    if ds == [] then {} else {ds[0].path} + PathsOf(ds[1..])
  }

  /** The pages on disk after the loop: each article writes <path>/index.html, so every
      article's path holds a page whatever its index flag. */
  function Pages(ds: seq<Decision>): (r: map<Value, string>)
    ensures r.Keys == PathsOf(ds)
    decreases |ds|
  {
    if ds == [] then map[]
    else
      map[ds[0].path := ds[0].page] + Pages(ds[1..])
  }

  /** A page holds the output of the last article written to its path. */
  lemma {:induction false} LastWriterWins(ds: seq<Decision>, i: nat)
    requires i < |ds|
    requires forall j :: i < j < |ds| ==> ds[j].path != ds[i].path
    ensures Pages(ds)[ds[i].path] == ds[i].page
    decreases i
  {
    if i == 0 {
      assert ds[0].path !in PathsOf(ds[1..]);
    } else {
      assert forall j :: i - 1 < j < |ds| - 1 ==> ds[1..][j] == ds[j + 1];
      LastWriterWins(ds[1..], i - 1);
    }
  }

  /** No two articles share a path. */
  predicate DistinctPaths(ds: seq<Decision>)
  {
    forall i, j :: 0 <= i < j < |ds| ==> ds[i].path != ds[j].path
  }

  lemma DistinctTail(ds: seq<Decision>)
    requires ds != [] && DistinctPaths(ds)
    ensures DistinctPaths(ds[1..]) && ds[0].path !in PathsOf(ds[1..])
  {
    var tail := ds[1..];
    forall i, j | 0 <= i < j < |tail| ensures tail[i].path != tail[j].path {
      assert tail[i] == ds[i + 1] && tail[j] == ds[j + 1];
    }
    forall i | 0 <= i < |tail| ensures tail[i].path != ds[0].path {
      assert tail[i] == ds[i + 1];
    }
  }

  /** With pairwise distinct paths no page is lost: one page per article. */
  lemma {:induction false} DistinctPathsKeepAllPages(ds: seq<Decision>)
    requires DistinctPaths(ds)
    ensures |Pages(ds)| == |ds|
    decreases |ds|
  {
    if ds != [] {
      DistinctTail(ds);
      DistinctPathsKeepAllPages(ds[1..]);
      var rest := Pages(ds[1..]);
      assert Pages(ds).Keys == rest.Keys + {ds[0].path};
    }
  }

  /** The config.yml keys `main_generate` reads. None holds a dot, so `get_config` and
      `check_if_in_config` take a single step on each (`Config.PlainKeyIsLookup`). */
  const ArticlesKey: string := "articles"
  const BuildDirKey: string := "builddir"
  const StaticDirKey: string := "staticdir"
  const TemplatesDirKey: string := "templatesdir"
  const VarKey: string := "var"

  /** `for article in data`: the article list must be a list. Iterating an empty mapping or
      string processes nothing; a non-empty one yields strings, which `article['source']`
      cannot index (TypeError); other values are not iterable (TypeError). */
  function ArticleList(data: Value): (r: Result<seq<Value>, Failure>)
    ensures data.List? ==> r == Ok(data.items)
    ensures r.Ok? && !data.List? ==> r.value == []
  {
    match data
    case List(xs) => Ok(xs)
    case Map(m) => if m == map[] then Ok([]) else Err(WrongKind)
    case Str(s) => if s == [] then Ok([]) else Err(WrongKind)
    case _ => Err(WrongKind)
  }

  /** Lines 202-204: the global `var`, or None when the key is absent. */
  function GlobalVar(root: Value): Result<Value, Failure>
  {
    var present :- Has(root, VarKey);
    if present then Lookup(root, VarKey) else Ok(Null)
  }

  /** What the run reads from config.yml before the article loop (lines 146-165) and
      inside it (lines 202-204): the article entries and the global `var`. The build,
      static and templates directories must be set; their use is file-system work. */
  datatype Settings = Settings(entries: seq<Value>, globalVar: Value)

  function ReadSettings(root: Value): (r: Result<Settings, Failure>)
    ensures Lookup(root, ArticlesKey).Err? ==> r == Err(Lookup(root, ArticlesKey).error)
    ensures Lookup(root, ArticlesKey) == Ok(Null) ==> r == Err(NoArticles)
    ensures r.Ok? ==> Lookup(root, ArticlesKey).Ok? && ArticleList(Lookup(root, ArticlesKey).value) == Ok(r.value.entries)
    ensures r.Ok? <==> && Lookup(root, ArticlesKey).Ok? && !Lookup(root, ArticlesKey).value.Null?
                       && Lookup(root, BuildDirKey).Ok? && Lookup(root, StaticDirKey).Ok? && Lookup(root, TemplatesDirKey).Ok?
                       && ArticleList(Lookup(root, ArticlesKey).value).Ok? && GlobalVar(root).Ok?
    ensures r.Ok? ==> r.value.globalVar == GlobalVar(root).value
  {
    var data :- Lookup(root, ArticlesKey);
    if data.Null? then Err(NoArticles)
    else
      var _ :- Lookup(root, BuildDirKey);
      var _ :- Lookup(root, StaticDirKey);
      var _ :- Lookup(root, TemplatesDirKey);
      var entries :- ArticleList(data);
      var globalVar :- GlobalVar(root);
      Ok(Settings(entries, globalVar))
  }

  /** Lines 276-284: the index template must exist; `var` there is the last article's,
      and is unbound when no article was processed. */
  function Finish(ds: seq<Decision>, templates: set<string>, env: Collaborators): (r: Result<Site, Failure>)
    ensures "index.html" !in templates ==> r == Err(TemplateNotFound("index.html"))
    ensures "index.html" in templates && ds == [] ==> r == Err(NoArticleProcessed)
    ensures r.Ok? ==> r.value.decisions == ds && ds != []
    ensures r.Ok? ==> r.value.index == IndexEntries(ds) && r.value.pages == Pages(ds)
    ensures r.Ok? ==> env.renderIndex(r.value.index, ds[|ds| - 1].vars) == Some(r.value.indexPage)
    ensures "index.html" in templates && ds != [] ==>
              (r.Ok? <==> env.renderIndex(IndexEntries(ds), ds[|ds| - 1].vars).Some?)
  {
    if "index.html" !in templates then Err(TemplateNotFound("index.html"))
    else if ds == [] then Err(NoArticleProcessed)
    else
      var index := IndexEntries(ds);
      match env.renderIndex(index, ds[|ds| - 1].vars)
      case None => Err(IndexRenderFailed)
      case Some(p) => Ok(Site(ds, Pages(ds), index, p))
  }

  /** `main_generate` as a whole: settings, the article loop, the index. */
  function Generate(root: Value, templates: set<string>, env: Collaborators): (r: Result<Site, Failure>)
    ensures ReadSettings(root).Err? ==> r == Err(ReadSettings(root).error)
    ensures r.Ok? ==> ReadSettings(root).Ok?
    ensures r.Ok? ==>
              var settings := ReadSettings(root).value;
              |r.value.decisions| == |settings.entries| > 0
              && forall i :: 0 <= i < |settings.entries| ==>
                   ProcessArticle(settings.entries[i], settings.globalVar, templates, env) == Ok(r.value.decisions[i])
    ensures r.Ok? ==> "index.html" in templates
    ensures r.Ok? ==> r.value.index == IndexEntries(r.value.decisions)
    ensures r.Ok? ==> r.value.pages == Pages(r.value.decisions) && r.value.pages.Keys == PathsOf(r.value.decisions)
    ensures ReadSettings(root).Ok? ==>
              var settings := ReadSettings(root).value;
              var loop := ProcessAll(settings.entries, settings.globalVar, templates, env);
              loop.Err? ==> r == Err(loop.error)
    ensures ReadSettings(root).Ok? ==>
              var settings := ReadSettings(root).value;
              var loop := ProcessAll(settings.entries, settings.globalVar, templates, env);
              loop.Ok? ==> r == Finish(loop.value, templates, env)
  {
    var settings :- ReadSettings(root);
    var ds :- ProcessAll(settings.entries, settings.globalVar, templates, env);
    Finish(ds, templates, env)
  }
}

/** Properties of whole runs. */
module GeneratorFacts {
  import opened Wrappers
  import opened Values
  import opened Text
  import opened Paths
  import opened Config
  import opened Variables
  import opened Templates
  import opened Generator

  /** The index keeps article order: the entries of a concatenation are the entries of
      its parts, concatenated. */
  lemma {:induction false} IndexEntriesAppend(a: seq<Decision>, b: seq<Decision>)
    ensures IndexEntries(a + b) == IndexEntries(a) + IndexEntries(b)
    decreases |a|
  {
    if a == [] {
      assert a + b == b;
    } else {
      assert (a + b)[0] == a[0];
      assert (a + b)[1..] == a[1..] + b;
      IndexEntriesAppend(a[1..], b);
    }
  }

  /** In a finished site every article has a page, listed or not, and every listed
      article has its entry in the index. */
  lemma EveryArticleHasAPage(ds: seq<Decision>, templates: set<string>, env: Collaborators, i: nat)
    requires i < |ds|
    requires Finish(ds, templates, env).Ok?
    ensures var site := Finish(ds, templates, env).value;
            && ds[i].path in site.pages
            && (ds[i].listed ==> IndexEntry(ds[i].title, ds[i].path) in site.index)
  {
  }

  /** An empty `articles` list is not rejected up front, but the run still fails: either
      earlier, or at the index step, where `var` was never bound. */
  lemma EmptyArticleListFails(root: Value, templates: set<string>, env: Collaborators)
    requires Lookup(root, ArticlesKey) == Ok(List([]))
    ensures Generate(root, templates, env).Err?
  {
  }

  lemma HelloPath()
    ensures TitleToPath("Hello") == "hello"
  {
    assert Lower("Hello") == "hello";
    assert ReplaceChar("hello", ' ', '-') == "hello";
  }

  function ExampleRoot(): Value
  {
    Map(map[
      "articles" := List([Map(map["source" := Str("a.git")]), Map(map["source" := Str("b.git")])]),
      "builddir" := Str("build"), "staticdir" := Str("static"), "templatesdir" := Str("templates")])
  }

  lemma KeysHaveNoDots()
    ensures '.' !in ArticlesKey && '.' !in BuildDirKey && '.' !in StaticDirKey
    ensures '.' !in TemplatesDirKey && '.' !in VarKey
  {
  }

  /** The keys read through one-segment lookups are read exactly as `get_config` and
      `check_if_in_config` read them. */
  lemma SettingsKeysAreConfigKeys(root: Value)
    ensures Lookup(root, ArticlesKey) == Get(root, ArticlesKey)
    ensures Lookup(root, BuildDirKey) == Get(root, BuildDirKey)
    ensures Lookup(root, StaticDirKey) == Get(root, StaticDirKey)
    ensures Lookup(root, TemplatesDirKey) == Get(root, TemplatesDirKey)
    ensures Lookup(root, VarKey) == Get(root, VarKey) && Has(root, VarKey) == IsSet(root, VarKey)
  {
    KeysHaveNoDots();
    PlainKeyIsLookup(root, ArticlesKey);
    PlainKeyIsLookup(root, BuildDirKey);
    PlainKeyIsLookup(root, StaticDirKey);
    PlainKeyIsLookup(root, TemplatesDirKey);
    PlainKeyIsLookup(root, VarKey);
  }

  lemma GlobalVarOfMapping(root: Value)
    requires root.Map?
    ensures GlobalVar(root) == Ok(if VarKey in root.entries then root.entries[VarKey] else Null)
  {
    LookupTopLevel(root, VarKey);
  }

  /** Reading the global `var` happens inside the loop in the program and before it here.
      The move changes nothing: once `articles` was found, the top level is a mapping, and
      reading `var` from a mapping cannot fail. */
  lemma GlobalVarNeverFails(root: Value)
    requires Lookup(root, ArticlesKey).Ok?
    ensures root.Map? && GlobalVar(root).Ok?
  {
    LookupTopLevel(root, ArticlesKey);
    GlobalVarOfMapping(root);
  }

  /** For a top-level mapping holding a list of articles and the three directories, the
      settings are that list and the global `var` (null when absent). */
  lemma SettingsOfMapping(root: Value)
    requires root.Map?
    requires ArticlesKey in root.entries && root.entries[ArticlesKey].List?
    requires BuildDirKey in root.entries && StaticDirKey in root.entries && TemplatesDirKey in root.entries
    ensures ReadSettings(root) == Ok(Settings(root.entries[ArticlesKey].items,
                                              if VarKey in root.entries then root.entries[VarKey] else Null))
  {
    LookupTopLevel(root, ArticlesKey);
    LookupTopLevel(root, BuildDirKey);
    LookupTopLevel(root, StaticDirKey);
    LookupTopLevel(root, TemplatesDirKey);
    GlobalVarOfMapping(root);
  }

  lemma ExampleSettings()
    ensures ReadSettings(ExampleRoot())
            == Ok(Settings([Map(map["source" := Str("a.git")]), Map(map["source" := Str("b.git")])], Null))
  {
    var root := ExampleRoot();
    assert "var" !in root.entries;
    SettingsOfMapping(root);
  }

  /** The article step succeeds once each of its stages does. */
  lemma ProcessArticleSucceeds(entry: Value, globalVar: Value, templates: set<string>, env: Collaborators,
                               fetched: Fetched, merged: Vars, vars: Vars)
    requires entry.Map? && "source" in entry.entries
    requires env.fetch(entry.entries["source"]) == Ok(fetched)
    requires GetVars(fetched.articleConfig, entry.entries, globalVar) == Ok(merged)
    requires DefaultTitleAndPath(merged, fetched.markdown) == Ok(vars)
    requires env.expand(fetched.markdown, vars).Some?
    requires ChooseTemplate(vars, templates).name in templates
    requires env.renderPage(ChooseTemplate(vars, templates).name,
                            env.toHtml(env.expand(fetched.markdown, vars).value), vars).Some?
    ensures var r := ProcessArticle(entry, globalVar, templates, env);
            && r.Ok? && r.value.vars == vars && r.value.title == vars["title"] && r.value.path == vars["path"]
            && r.value.template == ChooseTemplate(vars, templates)
            && r.value.page == env.renderPage(ChooseTemplate(vars, templates).name,
                                              env.toHtml(env.expand(fetched.markdown, vars).value), vars).value
  {
  }

  /** With no `var` in the entry and no global `var`, the merged variables are the article's own. */
  lemma ConfigOnly(cfg: Vars, entry: Vars)
    requires "var" !in entry
    ensures GetVars(Map(cfg), entry, Null) == Ok(cfg)
  {
    assert EntryVar(entry) == Null;
    assert cfg + map[] + map[] == cfg;
  }

  lemma ExampleArticleA(env: Collaborators, markdownA: string, templates: set<string>)
    requires env.fetch(Str("a.git")) == Ok(Fetched.Fetched(markdownA, Map(map["title" := Str("Hello")])))
    requires forall m, v :: env.expand(m, v).Some?
    requires forall t, h, v :: env.renderPage(t, h, v).Some?
    requires "article.html" in templates
    ensures var d := ProcessArticle(Map(map["source" := Str("a.git")]), Null, templates, env);
            d.Ok? && d.value.title == Str("Hello") && d.value.path == Str("hello") && d.value.listed
  {
    var a := Map(map["source" := Str("a.git")]);
    var cfg := map["title" := Str("Hello")];
    ConfigOnly(cfg, a.entries);
    ExampleTitleA(markdownA);
    var vars := map["title" := Str("Hello"), "path" := Str("hello")];
    assert ChooseTemplate(vars, templates).name == Default;
    ProcessArticleSucceeds(a, Null, templates, env, env.fetch(Str("a.git")).value, cfg, vars);
  }

  lemma ExampleTitleA(markdownA: string)
    ensures DefaultTitleAndPath(map["title" := Str("Hello")], markdownA) == Ok(map["title" := Str("Hello"), "path" := Str("hello")])
  {
    HelloPath();
  }

  lemma ExampleArticleB(env: Collaborators, markdownB: string, templates: set<string>)
    requires env.fetch(Str("b.git")) == Ok(Fetched.Fetched(markdownB, Map(map["index" := Bool(false), "path" := Str("custom")])))
    requires forall m, v :: env.expand(m, v).Some?
    requires forall t, h, v :: env.renderPage(t, h, v).Some?
    requires "article.html" in templates
    ensures var d := ProcessArticle(Map(map["source" := Str("b.git")]), Null, templates, env);
            d.Ok? && d.value.path == Str("custom") && !d.value.listed
  {
    var b := Map(map["source" := Str("b.git")]);
    var cfg := map["index" := Bool(false), "path" := Str("custom")];
    ConfigOnly(cfg, b.entries);
    var vars := cfg["title" := HeadingTitle(markdownB)];
    assert DefaultTitleAndPath(cfg, markdownB) == Ok(vars);
    assert ChooseTemplate(vars, templates).name == Default;
    ProcessArticleSucceeds(b, Null, templates, env, env.fetch(Str("b.git")).value, cfg, vars);
  }

  lemma PathsOfPair(d0: Decision, d1: Decision)
    ensures PathsOf([d0, d1]) == {d0.path, d1.path}
  {
    var ds := [d0, d1];
    assert d0 in ds && d1 in ds;
    forall p | p in PathsOf(ds)
      ensures p == d0.path || p == d1.path
    {
      var d :| d in ds && d.path == p;
    }
  }

  lemma ExampleLoop(env: Collaborators, markdownA: string, markdownB: string, templates: set<string>)
    requires env.fetch(Str("a.git")) == Ok(Fetched.Fetched(markdownA, Map(map["title" := Str("Hello")])))
    requires env.fetch(Str("b.git")) == Ok(Fetched.Fetched(markdownB, Map(map["index" := Bool(false), "path" := Str("custom")])))
    requires forall m, v :: env.expand(m, v).Some?
    requires forall t, h, v :: env.renderPage(t, h, v).Some?
    requires "article.html" in templates
    ensures var r := ProcessAll([Map(map["source" := Str("a.git")]), Map(map["source" := Str("b.git")])], Null, templates, env);
            && r.Ok? && |r.value| == 2
            && r.value[0].title == Str("Hello") && r.value[0].path == Str("hello") && r.value[0].listed
            && r.value[1].path == Str("custom") && !r.value[1].listed
  {
    var entries := [Map(map["source" := Str("a.git")]), Map(map["source" := Str("b.git")])];
    ExampleArticleA(env, markdownA, templates);
    ExampleArticleB(env, markdownB, templates);
  }

  lemma ExampleFinish(ds: seq<Decision>, env: Collaborators)
    requires |ds| == 2
    requires ds[0].title == Str("Hello") && ds[0].path == Str("hello") && ds[0].listed
    requires ds[1].path == Str("custom") && !ds[1].listed
    requires forall e, v :: env.renderIndex(e, v).Some?
    ensures var r := Finish(ds, {"article.html", "index.html"}, env);
            && r.Ok?
            && r.value.index == [IndexEntry(Str("Hello"), Str("hello"))]
            && r.value.pages.Keys == {Str("hello"), Str("custom")}
  {
    assert ds[1..] == [ds[1]];
    assert IndexEntries([ds[1]]) == [];
    assert IndexEntries(ds) == [IndexEntry(Str("Hello"), Str("hello"))];
    assert ds == [ds[0], ds[1]];
    PathsOfPair(ds[0], ds[1]);
  }

  /** Two articles: A sets `title: Hello` and neither `path` nor `index`; B sets
      `index: false` and `path: custom`. A's page goes to hello/, B's to custom/, and the
      index lists A alone. */
  lemma TwoArticleRun(env: Collaborators, markdownA: string, markdownB: string)
    requires env.fetch(Str("a.git")) == Ok(Fetched.Fetched(markdownA, Map(map["title" := Str("Hello")])))
    requires env.fetch(Str("b.git")) == Ok(Fetched.Fetched(markdownB, Map(map["index" := Bool(false), "path" := Str("custom")])))
    requires forall m, v :: env.expand(m, v).Some?
    requires forall t, h, v :: env.renderPage(t, h, v).Some?
    requires forall e, v :: env.renderIndex(e, v).Some?
    ensures var r := Generate(ExampleRoot(), {"article.html", "index.html"}, env);
            && r.Ok?
            && r.value.index == [IndexEntry(Str("Hello"), Str("hello"))]
            && r.value.pages.Keys == {Str("hello"), Str("custom")}
  {
    var templates := {"article.html", "index.html"};
    ExampleSettings();
    ExampleLoop(env, markdownA, markdownB, templates);
    var entries := [Map(map["source" := Str("a.git")]), Map(map["source" := Str("b.git")])];
    var ds := ProcessAll(entries, Null, templates, env).value;
    ExampleFinish(ds, env);
  }
}

=== FILE: headings.dfy ===
/** `get_first_heading`: the title taken from the markdown when the configuration has none. */
module Headings {
  import opened Wrappers
  import opened Text

  /** The level-1 heading marker. */
  const Marker: string := "# "

  /** A line is a heading line when it begins with the marker; `## ...` never does. */
  function IsHeadingLine(line: string): (b: bool)
    ensures StartsWith(line, "##") ==> !b
    ensures StartsWith(line, "#") && |line| >= 2 && line[1] == ' ' ==> b
    ensures b ==> |line| >= 2 && line[0] == '#' && line[1] == ' '
  {
    StartsWith(line, Marker)
  }

  /** Python's `line.replace('# ', '')`: a left-to-right scan deleting every
      non-overlapping occurrence of the marker, wherever it is in the line. */
  function RemoveMarkers(s: string): (r: string)
    ensures |r| <= |s|
    ensures (|s| - |r|) % 2 == 0
    ensures !Occurs(Marker, s) ==> r == s
    ensures StartsWith(s, Marker) ==> r == RemoveMarkers(s[2..])
    decreases |s|
  {
    if s == [] then []
    else if StartsWith(s, Marker) then RemoveMarkers(s[2..])
    else [s[0]] + RemoveMarkers(s[1..])
  }

  /** The characters of `s` other than '#' and ' ', in order. */
  function OtherChars(s: string): string
    decreases |s|
  {
    if s == [] then []
    else if s[0] == '#' || s[0] == ' ' then OtherChars(s[1..])
    else [s[0]] + OtherChars(s[1..])
  }

  /** Only marker characters are deleted: every other character is kept, in order. */
  lemma {:induction false} RemoveMarkersKeepsText(s: string)
    ensures OtherChars(RemoveMarkers(s)) == OtherChars(s)
    decreases |s|
  {
    if s == [] {
    } else if StartsWith(s, Marker) {
      RemoveMarkersKeepsText(s[2..]);
      assert s[0] == '#' && s[1] == ' ';
      assert s[1..][1..] == s[2..];
    } else {
      RemoveMarkersKeepsText(s[1..]);
    }
  }

  /** Every marker is removed wherever it sits: the text on either side of a marker is
      treated on its own and the two results are joined. */
  lemma {:induction false} RemoveMarkersSplits(a: string, b: string)
    ensures RemoveMarkers(a + Marker + b) == RemoveMarkers(a) + RemoveMarkers(b)
    decreases |a|
  {
    var s := a + Marker + b;
    if a == [] {
      assert s == Marker + b;
      assert s[..2] == Marker && s[2..] == b;
    } else if |a| >= 2 && a[..2] == Marker {
      assert s[..2] == a[..2];
      assert s[2..] == a[2..] + Marker + b;
      RemoveMarkersSplits(a[2..], b);
    } else {
      // a marker cannot start at the front of s: either a's own first two characters
      // are not one, or a is a single character followed by the marker's '#'
      assert !StartsWith(s, Marker) by {
        if |a| >= 2 {
          assert s[..2] == a[..2];
        } else {
          assert s[1] == '#';
        }
      }
      assert !StartsWith(a, Marker);
      assert s[0] == a[0];
      assert s[1..] == a[1..] + Marker + b;
      RemoveMarkersSplits(a[1..], b);
    }
  }

  /** The title a heading line yields. */
  function HeadingText(line: string): string
  {
    Strip(RemoveMarkers(line))
  }

  /** The text of the first heading line, or None when no line is a heading. */
  function FirstHeadingIn(lines: seq<string>): (r: Option<string>)
    ensures r.None? <==> forall i :: 0 <= i < |lines| ==> !IsHeadingLine(lines[i])
    decreases |lines|
  {
    if lines == [] then None
    else if IsHeadingLine(lines[0]) then Some(HeadingText(lines[0]))
    else FirstHeadingIn(lines[1..])
  }

  /** `get_first_heading(markdown)`: split at line feeds, take the first heading line. */
  function FirstHeading(markdown: string): Option<string>
  {
    FirstHeadingIn(Split(markdown, '\n'))
  }

  /** The heading found is the one on the first heading line; every earlier line is ignored. */
  lemma {:induction false} FirstHeadingIsFirst(lines: seq<string>, i: nat)
    requires i < |lines| && IsHeadingLine(lines[i])
    requires forall j :: 0 <= j < i ==> !IsHeadingLine(lines[j])
    ensures FirstHeadingIn(lines) == Some(HeadingText(lines[i]))
    decreases i
  {
    if i > 0 {
      assert !IsHeadingLine(lines[0]);
      FirstHeadingIsFirst(lines[1..], i - 1);
    }
  }

  /** Whatever the markdown, a found heading is stripped: no whitespace at either end. */
  lemma FirstHeadingIsStripped(markdown: string)
    ensures FirstHeading(markdown).Some? ==>
              var h := FirstHeading(markdown).value;
              h == [] || (!IsSpace(h[0]) && !IsSpace(h[|h| - 1]))
  {
    var lines := Split(markdown, '\n');
    if FirstHeading(markdown).Some? {
      FirstHeadingWitness(lines);
    }
  }

  lemma {:induction false} FirstHeadingWitness(lines: seq<string>)
    requires FirstHeadingIn(lines).Some?
    ensures exists i :: 0 <= i < |lines| && FirstHeadingIn(lines).value == HeadingText(lines[i])
    decreases |lines|
  {
    if !IsHeadingLine(lines[0]) {
      FirstHeadingWitness(lines[1..]);
      var i :| 0 <= i < |lines[1..]| && FirstHeadingIn(lines[1..]).value == HeadingText(lines[1..][i]);
      assert lines[1..][i] == lines[i + 1];
    }
  }

  lemma ExampleRemoval()
    ensures RemoveMarkers("# C# b") == "Cb"
  {
    assert RemoveMarkers("b") == "b";
    assert RemoveMarkers("# b") == "b";
    assert RemoveMarkers("C# b") == "Cb";
  }

  /** The marker is removed inside the heading text too: the line "# C# b" yields "Cb". */
  lemma InnerMarkerRemoved()
    ensures HeadingText("# C# b") == "Cb"
  {
    ExampleRemoval();
    assert LeadingSpaces("Cb") == 0;
    assert TrailingStart("Cb") == 2;
  }
}

=== FILE: paths.dfy ===
/** `title_to_path`: the URL directory an article is written to when its
    configuration names no `path`. */
module Paths {
  import opened Text

  /** Lower-case the title, then turn every space into a hyphen. Nothing else is
      normalised: punctuation, slashes and repeated hyphens pass through. */
  function TitleToPath(title: string): (path: string)
    ensures |path| == |title|
    ensures ' ' !in path
    ensures forall i :: 0 <= i < |path| ==> !IsUpper(path[i])
    ensures forall i :: 0 <= i < |title| && title[i] == ' ' ==> path[i] == '-'
    ensures forall i :: 0 <= i < |title| && title[i] != ' ' ==> path[i] == LowerChar(title[i])
    ensures forall i :: 0 <= i < |title| && title[i] != ' ' && !IsUpper(title[i]) ==> path[i] == title[i]
  {
    ReplaceChar(Lower(title), ' ', '-')
  }

  /** A path derived from a title is its own path: deriving again changes nothing. */
  lemma TitleToPathIdempotent(title: string)
    ensures TitleToPath(TitleToPath(title)) == TitleToPath(title)
  {
    var p := TitleToPath(title);
    var q := TitleToPath(p);
    assert forall i :: 0 <= i < |p| ==> q[i] == p[i];
  }

  /** Two titles that differ only in letter case or in space-versus-hyphen give the same
      path, so such articles overwrite each other's page. */
  lemma TitleToPathCollides(a: string, b: string)
    requires |a| == |b|
    requires forall i :: 0 <= i < |a| ==>
               (if a[i] == ' ' then '-' else LowerChar(a[i])) == (if b[i] == ' ' then '-' else LowerChar(b[i]))
    ensures TitleToPath(a) == TitleToPath(b)
  {
    assert forall i :: 0 <= i < |a| ==> TitleToPath(a)[i] == TitleToPath(b)[i];
  }
}

=== FILE: templates.dfy ===
/** Choosing the page template of an article (generator.py lines 238-247). */
module Templates {
  import opened Values

  const Default: string := "article.html"

  /** The only templates an article may ask for. */
  const Allowed: set<string> := {"article.html", "article_raw.html"}

  /** The template used, and whether the "Invalid template file" warning was logged. */
  datatype Choice = Choice(name: string, warned: bool)

  /** The requested name is honoured only when it is on the allow-list and a file of that
      name exists in the templates directory (`existing`); every other request falls back
      to the default with a warning. No request means the default without a warning. */
  function ChooseTemplate(vars: Vars, existing: set<string>): (c: Choice)
    ensures c.name in Allowed
    ensures c.name != Default ==> "template" in vars && vars["template"] == Str(c.name) && c.name in existing
    ensures "template" in vars && vars["template"].Str? && vars["template"].s in Allowed && vars["template"].s in existing
            ==> c == Choice(vars["template"].s, false)
    ensures "template" !in vars ==> c == Choice(Default, false)
    ensures c.warned ==> c.name == Default
    ensures c.warned <==> "template" in vars && !(vars["template"].Str? && vars["template"].s in Allowed && vars["template"].s in existing)
  {
    if "template" !in vars then Choice(Default, false)
    else match vars["template"]
      case Str(t) => if t in existing && t in Allowed then Choice(t, false) else Choice(Default, true)
      case _ => Choice(Default, true)
  }
}

=== FILE: text.dfy ===
/** The handful of Python `str` operations the generator relies on, on `seq<char>`. */
module Text {

  predicate StartsWith(s: string, prefix: string)
  {
    |prefix| <= |s| && s[..|prefix|] == prefix
  }

  /** Python's `sub in s` on two strings; the empty string occurs in every string. */
  predicate Occurs(sub: string, s: string)
    decreases |s|
  {
    StartsWith(s, sub) || (|s| > 0 && Occurs(sub, s[1..]))
  }

  /** `sub` sits in `s` at position `i`. */
  predicate OccursAtIndex(sub: string, s: string, i: int)
  {
    0 <= i && i + |sub| <= |s| && s[i..i + |sub|] == sub
  }

  /** The scan of `Occurs` agrees with the positional definition of a substring. */
  lemma {:induction false} OccursAt(sub: string, s: string)
    ensures Occurs(sub, s) <==> exists i :: OccursAtIndex(sub, s, i)
    decreases |s|
  {
    if StartsWith(s, sub) {
      assert OccursAtIndex(sub, s, 0);
    } else if |s| == 0 {
    } else {
      OccursAt(sub, s[1..]);
      if exists i :: OccursAtIndex(sub, s, i) {
        var i :| OccursAtIndex(sub, s, i);
        assert i != 0;
        assert s[1..][i - 1..i - 1 + |sub|] == s[i..i + |sub|];
        assert OccursAtIndex(sub, s[1..], i - 1);
      }
      if Occurs(sub, s[1..]) {
        var i :| OccursAtIndex(sub, s[1..], i);
        assert s[1..][i..i + |sub|] == s[i + 1..i + 1 + |sub|];
        assert OccursAtIndex(sub, s, i + 1);
      }
    }
  }

  /** Python's `s.split(sep)` for a one-character separator: the pieces between the
      separators, always at least one (the empty string splits into one empty piece). */
  function Split(s: string, sep: char): (parts: seq<string>)
    ensures |parts| >= 1
    ensures forall i :: 0 <= i < |parts| ==> sep !in parts[i]
    decreases |s|
  {
    if s == [] then [[]]
    else
      var rest := Split(s[1..], sep);
      if s[0] == sep then [[]] + rest
      else [[s[0]] + rest[0]] + rest[1..]
  }

  /** Python's `sep.join(parts)`. */
  function Join(parts: seq<string>, sep: char): string
    decreases |parts|
  {
    if |parts| == 0 then []
    else if |parts| == 1 then parts[0]
    else parts[0] + [sep] + Join(parts[1..], sep)
  }

  lemma JoinExtendsFirst(c: char, rest: seq<string>, sep: char)
    requires |rest| >= 1
    ensures Join([[c] + rest[0]] + rest[1..], sep) == [c] + Join(rest, sep)
  {
    var parts := [[c] + rest[0]] + rest[1..];
    assert parts[1..] == rest[1..];
  }

  /** Joining the pieces with the separator gives back the original string. */
  lemma {:induction false} JoinSplit(s: string, sep: char)
    ensures Join(Split(s, sep), sep) == s
    decreases |s|
  {
    if s != [] {
      var rest := Split(s[1..], sep);
      JoinSplit(s[1..], sep);
      if s[0] == sep {
        assert ([[]] + rest)[1..] == rest;
      } else {
        JoinExtendsFirst(s[0], rest, sep);
      }
    }
  }

  lemma {:induction false} SplitPrefix(a: string, tail: string, sep: char)
    requires sep !in a
    ensures Split(a + tail, sep) == [a + Split(tail, sep)[0]] + Split(tail, sep)[1..]
    decreases |a|
  {
    if a != [] {
      var t := Split(tail, sep);
      assert (a + tail)[0] == a[0];
      assert (a + tail)[1..] == a[1..] + tail;
      SplitPrefix(a[1..], tail, sep);
      var rest := Split(a[1..] + tail, sep);
      assert rest == [a[1..] + t[0]] + t[1..];
      assert rest[0] == a[1..] + t[0];
      assert rest[1..] == t[1..];
      var u := a + tail;
      assert u[0] == a[0] && a[0] != sep;
      assert Split(u, sep) == [[u[0]] + rest[0]] + rest[1..];
      assert [a[0]] + (a[1..] + t[0]) == a + t[0];
    } else {
      var t := Split(tail, sep);
      assert a + tail == tail;
      assert a + t[0] == t[0];
      assert [t[0]] + t[1..] == t;
    }
  }

  /** Splitting a join of separator-free pieces gives back exactly those pieces. */
  lemma {:induction false} SplitJoin(parts: seq<string>, sep: char)
    requires |parts| >= 1
    requires forall i :: 0 <= i < |parts| ==> sep !in parts[i]
    ensures Split(Join(parts, sep), sep) == parts
    decreases |parts|
  {
    if |parts| == 1 {
      SplitPrefix(parts[0], [], sep);
      assert parts[0] + [] == parts[0];
    } else {
      var j := Join(parts[1..], sep);
      SplitJoin(parts[1..], sep);
      assert parts[0] + [sep] + j == parts[0] + ([sep] + j);
      SplitPrefix(parts[0], [sep] + j, sep);
      assert ([sep] + j)[1..] == j;
      assert ([sep] + j)[0] == sep;
      assert Split([sep] + j, sep) == [[]] + Split(j, sep);
      assert Split([sep] + j, sep)[0] == [];
      assert Split([sep] + j, sep)[1..] == parts[1..];
      assert parts[0] + [] == parts[0];
      assert parts == [parts[0]] + parts[1..];
    }
  }

  /** Python's str.isspace(): the ASCII whitespace and separator controls, NEL, NO-BREAK
      SPACE and the Unicode space separators. */
  predicate IsSpace(c: char)
  {
    || c == ' ' || ('\t' <= c <= '\r') || ('\U{1C}' <= c <= '\U{1F}')
    || c == '\U{85}' || c == '\U{A0}' || c == '\U{1680}'
    || ('\U{2000}' <= c <= '\U{200A}') || c == '\U{2028}' || c == '\U{2029}'
    || c == '\U{202F}' || c == '\U{205F}' || c == '\U{3000}'
  }

  /** Number of whitespace characters at the front of `s`. */
  function LeadingSpaces(s: string): (n: nat)
    ensures n <= |s|
    ensures forall i :: 0 <= i < n ==> IsSpace(s[i])
    ensures n < |s| ==> !IsSpace(s[n])
    decreases |s|
  {
    if s != [] && IsSpace(s[0]) then 1 + LeadingSpaces(s[1..]) else 0
  }

  /** Index where the whitespace at the back of `s` begins. */
  function TrailingStart(s: string): (n: nat)
    ensures n <= |s|
    ensures forall i :: n <= i < |s| ==> IsSpace(s[i])
    ensures n > 0 ==> !IsSpace(s[n - 1])
    decreases |s|
  {
    if s != [] && IsSpace(s[|s| - 1]) then TrailingStart(s[..|s| - 1]) else |s|
  }

  /** Python's `s.strip()`: the slice of `s` left once the whitespace at both ends is cut. */
  function Strip(s: string): (r: string)
    ensures r == [] || (!IsSpace(r[0]) && !IsSpace(r[|r| - 1]))
    ensures exists i, j :: 0 <= i <= j <= |s| && r == s[i..j]
                           && (forall k :: 0 <= k < i ==> IsSpace(s[k]))
                           && (forall k :: j <= k < |s| ==> IsSpace(s[k]))
  {
    var a := LeadingSpaces(s);
    var t := s[a..];
    var n := TrailingStart(t);
    assert t[..n] == s[a..a + n];
    assert forall k :: a + n <= k < |s| ==> s[k] == t[k - a];
    t[..n]
  }

  /** Stripping twice is stripping once. */
  lemma StripIdempotent(s: string)
    ensures Strip(Strip(s)) == Strip(s)
  {
    var r := Strip(s);
    assert LeadingSpaces(r) == 0;
    assert TrailingStart(r) == |r|;
  }

  /** ASCII part of Python's str.lower() for one character. */
  function LowerChar(c: char): char
  {
    if 'A' <= c <= 'Z' then (c as int + 32) as char else c
  }

  predicate IsUpper(c: char)
  {
    'A' <= c <= 'Z'
  }

  /** Python's `s.lower()` on ASCII text: every upper-case letter replaced by its lower-case
      form, every other character kept. */
  function Lower(s: string): (r: string)
    ensures |r| == |s|
    ensures forall i :: 0 <= i < |s| ==> r[i] == LowerChar(s[i])
    decreases |s|
  {
    if s == [] then [] else [LowerChar(s[0])] + Lower(s[1..])
  }

  /** Python's `s.replace(a, b)` for one-character `a` and `b`. */
  function ReplaceChar(s: string, a: char, b: char): (r: string)
    ensures |r| == |s|
    ensures forall i :: 0 <= i < |s| ==> r[i] == (if s[i] == a then b else s[i])
    decreases |s|
  {
    if s == [] then [] else [if s[0] == a then b else s[0]] + ReplaceChar(s[1..], a, b)
  }
}

=== FILE: values.dfy ===
/** The parsed YAML documents the generator reads (config.yml, var.yml) and the ways a run fails. */
module Values {

  /** One node of a parsed YAML document. Mapping keys are strings: a dotted key segment
      or a `var` name is a string and never equals a non-string key, so non-string keys
      are not represented. `Other` stands for floats, dates and every other node kind;
      `!!set` and `!!binary` nodes are folded into it too. It is treated as not iterable,
      not indexable by a string, and never equal to `True`. */
  datatype Value =
    | Null
    | Bool(b: bool)
    | Int(i: int)
    | Str(s: string)
    | List(items: seq<Value>)
    | Map(entries: map<string, Value>)
    | Other

  /** The flattened variables of one article (the `var` dictionary of generator.py). */
  type Vars = map<string, Value>

  /** The keys and values a node holds when it is a mapping; nothing otherwise. */
  function Entries(v: Value): Vars
  {
    if v.Map? then v.entries else map[]
  }

  /** Why the clone step of an article did not yield its two files. */
  datatype FetchFailure =
    | CloneFailed        // `git clone` returned non-zero
    | TextFileMissing    // temp/text.md absent after the clone
    | VarFileMissing     // temp/var.yml absent after the clone
    | VarFileUnreadable  // temp/var.yml is not valid YAML

  /** Every way a generator run stops. All of them end the process with exit status 1,
      either through sys.exit(1) or through an uncaught Python exception. */
  datatype Failure =
    | MissingKey(key: string)       // get_config: a segment of the dotted key is absent
    | NoArticles                    // `articles` is set to null
    | WrongKind                     // TypeError: an operation applied to the wrong kind of value
    | MissingField(field: string)   // KeyError on an article entry (`source`)
    | FetchFailed(reason: FetchFailure)
    | TitleNotText                  // AttributeError: `.lower()` on a title that is not a string
    | BodyRenderFailed              // Jinja2 expansion of text.md failed
    | TemplateNotFound(name: string)
    | PageRenderFailed
    | NoArticleProcessed            // UnboundLocalError: `var` at the index step of an empty run
    | IndexRenderFailed
}

=== FILE: variables.dfy ===
/** `get_vars` and the title/path defaulting that follows it in `main_generate`. */
module Variables {
  import opened Wrappers
  import opened Values
  import opened Text
  import opened Paths
  import opened Headings

  /** What copying one layer entry by entry into the result yields. A null layer is
      skipped altogether. A mapping is copied whole. Iterating an
      empty string or list copies nothing; a non-empty one yields keys the layer cannot be
      indexed by (TypeError), and a scalar cannot be iterated at all (TypeError). */
  function Layer(layer: Value): (r: Result<Vars, Failure>)
    ensures r.Ok? ==> r.value == Entries(layer)
    ensures layer.Null? || layer.Map? ==> r.Ok?
    ensures r.Err? <==> !(layer.Null? || layer.Map? || layer == Str([]) || layer == List([]))
  {
    match layer
    case Null => Ok(map[])
    case Map(m) => Ok(m)
    case Str(s) => if s == [] then Ok(map[]) else Err(WrongKind)
    case List(xs) => if xs == [] then Ok(map[]) else Err(WrongKind)
    case _ => Err(WrongKind)
  }

  /** The `var` sub-map of an article entry of the `articles` list, or null when absent. */
  function EntryVar(entry: Vars): Value
  {
    if "var" in entry then entry["var"] else Null
  }

  /** `get_vars(articleconfig, article, globalvar)`: three layers copied in turn, later
      ones overwriting earlier ones — the article's var.yml, then the `var` of its entry
      in `articles`, then the global `var`. */
  function GetVars(articleConfig: Value, entry: Vars, globalVar: Value): (r: Result<Vars, Failure>)
    ensures r.Ok? <==> Layer(articleConfig).Ok? && Layer(EntryVar(entry)).Ok? && Layer(globalVar).Ok?
    ensures r.Ok? ==> r.value.Keys == Entries(articleConfig).Keys + Entries(EntryVar(entry)).Keys + Entries(globalVar).Keys
    ensures r.Ok? ==> forall k :: k in r.value ==>
              r.value[k] == (if k in Entries(globalVar) then Entries(globalVar)[k]
                             else if k in Entries(EntryVar(entry)) then Entries(EntryVar(entry))[k]
                             else Entries(articleConfig)[k])
  {
    var own :- Layer(articleConfig);
    var listed :- Layer(EntryVar(entry));
    var global :- Layer(globalVar);
    Ok(own + listed + global)
  }

  /** The title a missing `title` defaults to: the first heading, or None when there is none. */
  function HeadingTitle(markdown: string): (v: Value)
    ensures v.Null? <==> FirstHeading(markdown).None?
    ensures v.Str? ==> v.s == FirstHeading(markdown).value
  {
    match FirstHeading(markdown)
    case Some(h) => Str(h)
    case None => Null
  }

  /** Lines 209-217 of generator.py: fill in `title` from the first heading when absent,
      then `path` from the title when absent. Deriving a path calls `.lower()` on the title,
      which fails unless the title is a string. */
  function DefaultTitleAndPath(vars: Vars, markdown: string): (r: Result<Vars, Failure>)
    ensures r.Ok? ==> r.value.Keys == vars.Keys + {"title", "path"}
    ensures r.Ok? ==> forall k :: k in vars ==> r.value[k] == vars[k]
    ensures r.Ok? && "title" !in vars ==> r.value["title"] == HeadingTitle(markdown)
    ensures r.Ok? && "path" !in vars ==>
              r.value["title"].Str? && r.value["path"] == Str(TitleToPath(r.value["title"].s))
    ensures r.Err? <==> "path" !in vars && !(if "title" in vars then vars["title"] else HeadingTitle(markdown)).Str?
    ensures r.Err? ==> r.error == TitleNotText
  {
    var titled := if "title" in vars then vars else vars["title" := HeadingTitle(markdown)];
    if "path" in titled then Ok(titled)
    else match titled["title"]
      case Str(t) => Ok(titled["path" := Str(TitleToPath(t))])
      case _ => Err(TitleNotText)
  }

  /** With neither a configured title nor a heading, a path can only come from configuration. */
  lemma NoTitleNoPath(vars: Vars, markdown: string)
    requires "title" !in vars && "path" !in vars
    requires forall line :: line in Split(markdown, '\n') ==> !IsHeadingLine(line)
    ensures DefaultTitleAndPath(vars, markdown) == Err(TitleNotText)
  {
    var lines := Split(markdown, '\n');
    assert forall i :: 0 <= i < |lines| ==> !IsHeadingLine(lines[i]);
  }
}

=== FILE: wrappers.dfy ===
/** `Option` for a value that may be absent, and `Result` for a step that may end the run; `Result` supports `:-` propagation of the first failure. */
module Wrappers {

  datatype Option<+T> = None | Some(value: T)

  /** Either the computed value or the reason the run stopped. */
  datatype Result<+T, +E> = Ok(value: T) | Err(error: E) {

    predicate IsFailure() {
      Err?
    }

    function PropagateFailure<U>(): Result<U, E>
      requires Err?
    {
      Err(error)
    }

    function Extract(): T
      requires Ok?
    {
      value
    }
  }
}
